=== FILE: README.md ===
# GitHub browser: search, issue pivot and commit views in Dafny

This project models the logic core of a small Angular client for the GitHub
REST API. The user searches repositories by name, with optional language and
minimum-star filters, or by a term in issue titles. The results are listed,
and choosing a repository opens its commit list.

The model has three parts:

- **GithubService** (`github_service.dfy`). It builds the composite search
  query: the trimmed free text, then `language:<l>`, then `stars:>=<n>`,
  joined by single spaces. It builds the three request URLs. It maps a
  repository-search page to its `items`. It pivots an issue search to one
  repository GET per issue and joins the results in issue order, failing if
  any GET fails and completing without a list when no issue is found. The HTTP client is the record `Http`: one function per
  response type from the requested URL to a decoded body or an `HttpError`.
  Every operation returns the URLs it requested together with its result.
  `encodeURIComponent` is an uninterpreted parameter `encode`. URL
  properties are stated through `ParseUrl`, which reads a URL back into the
  endpoint and arguments it names.
- **ReposComponent** (`repos_component.dfy`). This is the search view as a
  state record (`form`, `submitted`, `loading`, `repos`) with pure
  transitions for edit, submit, next, complete and error. A submit returns
  the service call it makes. It also covers `goToCommits`, `hasResults` and
  `trackByRepo`.
- **CommitsComponent** (`commits_component.dfy`). This is the commit view as
  a state record (`loading`, `commits`) plus the tag of the latest request.
  A parameter emission issues the next tag. A response is applied only when
  it carries the latest tag, which is what `switchMap` guarantees.

Support modules: `Wrappers` (Option, Result); `Strings` (JavaScript `trim`,
`join`, `split` on one character, decimal rendering of integers); and
`GithubModels` (Repository, Issue, Commit with its nullable linked author,
and the search pages). `AppFlow` connects the pieces. It runs a submitted
call against the service, and it follows a chosen repository into the
commit view.

What the code does and does not do:

- The code has no response cache.
- The code attaches no `Authorization` header.
- The code has no local-storage persistence, no form reset, no `openCommit`
  and no back navigation.
- An invalid submit returns before setting `submitted`, so `submitted` stays
  as it was.
- The issue pivot fetches one repository per issue, duplicates included.
  There is no de-duplication.
- The `stars` control starts as the empty string, not `null`.
  `src/app/features/repos/repos.component.spec.ts:69` expects `null`.
- `Validators.required` accepts a query made only of white space. Such a
  query is searched with an empty composite query (`AppFlow.WhitespaceQueryIsSearched`).
- An issue search that finds no issue ends without delivering a list,
  because `forkJoin` of no requests completes without emitting. The view
  then keeps whatever list it showed (`ReposComponent.SilentCompletionKeepsEarlierList`).
- In the commit view `switchMap` drops stale responses, so a late answer to
  an earlier request cannot overwrite a later one (`CommitsComponent.LatestRequestWins`).
  The search view has no such guard: its last arrival wins
  (`ReposComponent.LastArrivalWins`).

## Model

| member | source | states |
|---|---|---|
| `Strings.Trim` | src/app/core/services/github.service.ts:28 | `trim` returns the part of the string between a leading and a trailing run of white space (ECMAScript WhiteSpace and LineTerminator); everything cut off is white space and the result neither starts nor ends with white space |
| `Strings.TrimEmptyIffBlank` | src/app/core/services/github.service.ts:28 | a query trims to the empty string exactly when it is entirely white space, so `if (query?.trim())` skips blank queries |
| `Strings.TrimIdempotent` | src/app/core/services/github.service.ts:28 | trimming a trimmed query changes nothing |
| `Strings.FindChar` | src/app/core/services/github.service.ts:62 | a reference definition (the code never searches a string): the first occurrence of a character, or none exactly when the character is absent; the parser uses it to read the `/`-separated commits path back |
| `Strings.Split` | src/app/core/services/github.service.ts:32 | a reference definition of one-character `split`, the inverse that `join` is checked against (the code never splits): at least one piece, and no piece contains the separator |
| `Strings.Join` | src/app/core/services/github.service.ts:32 | `terms.join(sep)`: the parts in order with the separator between neighbours; its meaning is pinned by `JoinSplit`, `SplitJoin` and `JoinSnoc` |
| `Strings.SplitJoin` | src/app/core/services/github.service.ts:32 | joining parts free of the separator and splitting again returns the parts, so a one-character separator marks exactly the part boundaries |
| `Strings.JoinSnoc` | src/app/core/services/github.service.ts:30-32 | pushing a term onto a non-empty list extends its join by one space and the term |
| `Strings.JoinSplit` | src/app/core/services/github.service.ts:32 | joining the pieces of a split with the separator restores the string |
| `Strings.NatToString` | src/app/core/services/github.service.ts:30 | the rendering of a number in a template literal is a non-empty digit string without leading zero |
| `Strings.ParseNatToString` | src/app/features/repos/repos.component.ts:114 | the decimal rendering of an id reads back as that id |
| `Strings.NatToStringInjective` | src/app/features/repos/repos.component.ts:114 | two ids render the same exactly when they are equal |
| `GithubService.QueryTerms` | src/app/core/services/github.service.ts:26-30 | the pushed terms: one per truthy input and no other; each non-empty; the trimmed text first when not blank, `language:<l>` right after it, `stars:>=<n>` last |
| `GithubService.ComposeQuery` | src/app/core/services/github.service.ts:26-32 | the composite query is empty exactly when the text is blank and neither the language nor the star count is truthy |
| `GithubService.ComposeQueryLayout` | src/app/core/services/github.service.ts:26-32 | the composite query places the trimmed text first, then `language:<l>`, then `stars:>=<n>` at the end, with single spaces between the terms that are present and no other character |
| `GithubService.OptionalTermsLayout` | src/app/core/services/github.service.ts:27-32 | joining whichever of three non-empty terms were pushed with `' '` keeps their order and puts exactly one space between neighbours |
| `GithubService.JoinLayout` | src/app/core/services/github.service.ts:32 | `join(' ')` of up to three terms puts a single space between neighbours |
| `GithubService.BlankQueryAddsNoTerm` | src/app/core/services/github.service.ts:28-32 | a blank query gives the same composite as an empty one: just the qualifiers, or `""` without any |
| `GithubService.FalsyQualifiersOmitted` | src/app/core/services/github.service.ts:29-30 | an empty language and a zero star count give the same query as an absent one |
| `GithubService.LanguageQualifierInserted` | src/app/core/services/github.service.ts:29 | a truthy language inserts `language:<l>` after the text (or in front) with one space and leaves the other terms as they were |
| `GithubService.JoinInsertFront` | src/app/core/services/github.service.ts:32 | for a list of any length, putting a term in front of the space-joined list gives that term alone when the list is empty, and otherwise that term, one space and the joined list |
| `GithubService.JoinInsertSecond` | src/app/core/services/github.service.ts:32 | for a list of any length after the first term, putting a term second inserts exactly that term and one space right after the first term of the joined text |
| `GithubService.StarsQualifierAppended` | src/app/core/services/github.service.ts:30 | a non-zero star count appends `stars:>=<n>`, with a space only when something precedes it, and leaves the rest unchanged |
| `GithubService.ComposeQueryIgnoresSurroundingSpace` | src/app/core/services/github.service.ts:28 | white space around the free text never reaches the composite query |
| `GithubService.ComposeQuerySplitsIntoTerms` | src/app/core/services/github.service.ts:26-32 | when at least one term is pushed and no term holds a space, splitting the composite on spaces yields the pushed terms in push order (with no term the composite is `""`, which splits into one empty piece) |
| `GithubService.RepoSearchUrl` | src/app/core/services/github.service.ts:33 | the repository-search URL reads back as the search endpoint carrying exactly the encoded composite query |
| `GithubService.IssueSearchUrl` | src/app/core/services/github.service.ts:46 | the issue-search URL reads back as the issue endpoint carrying exactly the encoded raw term |
| `GithubService.CommitsUrl` | src/app/core/services/github.service.ts:62 | for any owner and repository, the text between `/repos/` and `/commits` is exactly `<owner>/<repo>`; the commits URL never reads back as a search; it reads back as the owner and repository it was built from when neither holds a `/` |
| `GithubService.CommitsUrlAmbiguousWithSlash` | src/app/core/services/github.service.ts:62 | the unencoded path segments let two different owner/repository pairs produce one URL |
| `GithubService.EndpointsDistinct` | src/app/core/services/github.service.ts:33-62 | the repository-search, issue-search and commits URLs never coincide |
| `GithubService.SearchRepositories` | src/app/core/services/github.service.ts:25-38 | one GET, whose URL reads back as the repository search of the encoded composite query; success yields the page's `items` unchanged, failure the HTTP error |
| `GithubService.RepositoryUrls` | src/app/core/services/github.service.ts:48 | one repository URL per issue, each the issue's `repository_url`, in issue order |
| `GithubService.FetchAll` | src/app/core/services/github.service.ts:50 | the repository GETs, all or nothing: success exactly when every GET succeeds, then the repositories in URL order and one per URL; otherwise the error of one of the failed GETs |
| `GithubService.ForkJoin` | src/app/core/services/github.service.ts:49-51 | with no URL it completes without a value; otherwise success exactly when every repository GET succeeds, delivering the repositories in URL order, one per URL, and on failure the error of one of the failed GETs |
| `GithubService.SearchReposByIssueTerm` | src/app/core/services/github.service.ts:45-53 | first the issue search for the raw term; on its failure nothing else and that error; on success one further GET per issue in issue order; no issue means completion without a list, otherwise a list of one repository per issue, or failure if any GET fails |
| `GithubService.GetCommits` | src/app/core/services/github.service.ts:61-64 | one GET, answered by the response as it is; for any names the URL holds exactly `<owner>/<repo>` between `/repos/` and `/commits`, and it reads back as the commit list of that owner and repository when neither name holds a `/` |
| `ReposComponent.InitialFormInvalid` | src/app/features/repos/repos.component.ts:66-71 | the form starts as `name`, `""`, `""` and an empty-text stars value; it is invalid whenever `query` or `searchBy` is empty, so the initial form is invalid; the view starts not submitted, not loading, with no results |
| `ReposComponent.Required` | src/app/features/repos/repos.component.ts:67-68 | `Validators.required` on a string control fails only for the empty string, so white space alone passes |
| `ReposComponent.FormValid` | src/app/features/repos/repos.component.ts:66-71 | the form is valid exactly when `searchBy` and `query` pass `Validators.required`; `language` and `stars` carry no validator |
| `ReposComponent.LanguageArgument` | src/app/features/repos/repos.component.ts:89 | the fallback of `language` to `undefined` passes the language exactly when it is non-empty, unchanged, and `undefined` otherwise |
| `ReposComponent.StarsArgument` | src/app/features/repos/repos.component.ts:89 | `stars ? +stars : undefined` passes a count exactly when the control holds a non-zero number, that number, and `undefined` for the empty text, `null` and zero |
| `ReposComponent.HasResults` | src/app/features/repos/repos.component.ts:118-120 | `hasResults()` holds exactly when the shown list is non-empty |
| `ReposComponent.Dispatch` | src/app/features/repos/repos.component.ts:85-89 | exactly `searchBy == "issue"` calls the issue search with the raw query; any other value calls the repository search with the raw query, a language only when non-empty and a star count only when a non-zero number |
| `ReposComponent.OnSubmit` | src/app/features/repos/repos.component.ts:78-89 | an invalid form changes nothing and calls nothing; a valid one sets `submitted` and `loading`, clears `repos` and makes the dispatched call |
| `ReposComponent.Step` | src/app/features/repos/repos.component.ts:91-95 | a delivered list replaces `repos` wholesale; completion and error clear `loading` and change nothing else; only a submit of a valid form calls the service |
| `ReposComponent.TrackByRepo` | src/app/features/repos/repos.component.ts:113-115 | the row key is the repository id as a decimal string that reads back as the id and has no leading zero, as `toString` renders it |
| `ReposComponent.TrackByRepoKeysIdentify` | src/app/features/repos/repos.component.ts:113-115 | two rows share a key exactly when their repositories share an id, whatever their indexes |
| `ReposComponent.SearchesNeedQuery` | src/app/features/repos/repos.component.ts:66-83 | over any run of events from creation, no search is made with an empty query, and `submitted` holds exactly when a search has been made |
| `ReposComponent.SettledSearch` | src/app/features/repos/repos.component.ts:91-95 | once the submitted search settles with no other search in flight, loading is over and the view shows the delivered list, or nothing on error or when no list was delivered; `hasResults` holds exactly for a non-empty delivered list |
| `ReposComponent.SilentCompletionKeepsEarlierList` | src/app/features/repos/repos.component.ts:91-95 | a search that completes without a list, after an earlier search delivered one, stops loading but leaves the earlier list shown |
| `ReposComponent.LastArrivalWins` | src/app/features/repos/repos.component.ts:91-92 | with two searches in flight the list that arrives last is shown, even if it answers the older search |
| `ReposComponent.FirstCompletionClearsLoading` | src/app/features/repos/repos.component.ts:93-94 | the first search to complete clears `loading` while a later one is still pending |
| `ReposComponent.GoToCommits` | src/app/features/repos/repos.component.ts:101-107 | navigation goes to `['/commits']` with exactly the query parameters `owner` (the owner's login) and `repo` (the repository name) |
| `CommitsComponent.OnParams` | src/app/features/commits/commits.component.ts:43-45 | every parameter emission sets `loading`, keeps the shown list, and requests the commits of `params.owner`/`params.repo` (a missing one renders as `undefined`) under a fresh latest tag |
| `CommitsComponent.OnResponse` | src/app/features/commits/commits.component.ts:45-46 | a response to the latest request replaces the list and clears `loading`; a response to a superseded request changes nothing |
| `CommitsComponent.NoResults` | src/app/features/commits/commits.component.ts:55-58 | `noResults()` holds exactly when loading is over and the commit list is empty |
| `CommitsComponent.NoParamsNoAnswer` | src/app/features/commits/commits.component.ts:36-49 | before the route emits its parameters no request exists, so no response changes the view: it stays loading with an empty list |
| `CommitsComponent.NoResultsOnlyAfterEmptyAnswer` | src/app/features/commits/commits.component.ts:55-58 | `noResults` is false initially and while a request is pending; after the latest request is answered it holds exactly when the answer is empty |
| `CommitsComponent.LatestRequestWins` | src/app/features/commits/commits.component.ts:36-49 | over any interleaving of emissions and responses from creation: requests are tagged 1, 2, … in emission order; loading is over only after a request was made, and exactly when a response answered the latest request after it was made; the shown list is then such a response's |
| `CommitsComponent.ParamsCountPrefix` | src/app/features/commits/commits.component.ts:43-45 | a prefix of a run holds no more parameter emissions than the run, so an answer given before a request cannot carry that request's tag |
| `AppFlow.Perform` | src/app/features/repos/repos.component.ts:87-89 | the call a submit makes, carried out: a repository search requests what `searchRepositories` requests and delivers its list whenever it succeeds; an issue search is `searchReposByIssueTerm` as it is |
| `AppFlow.SubmittedSearchRequest` | src/app/features/repos/repos.component.ts:85-89 | a valid name search requests the repository search of the composite of the form's query and truthy filters, and delivers a list whenever it succeeds; an issue search requests the issue search of the untrimmed query |
| `AppFlow.WhitespaceQueryIsSearched` | src/app/features/repos/repos.component.ts:68 | a query of one space passes validation and is searched with the empty composite query |
| `AppFlow.SubmitAndSettle` | src/app/features/repos/repos.component.ts:87-95 | a valid submit carried out against the service, with no other search in flight, ends not loading, showing the delivered list in full, or nothing on failure or when no list was delivered, with `hasResults` exactly for a non-empty delivered list |
| `AppFlow.IssueSearchShowsOneRepositoryPerIssue` | src/app/core/services/github.service.ts:45-52 | an issue search that succeeds shows one repository per found issue, in issue order, each fetched from that issue's repository URL |
| `AppFlow.ChosenRepositoryCommitsRequested` | src/app/features/repos/repos.component.ts:101-107 | choosing a repository makes the commit view request exactly that owner's login and repository name; the URL holds `<login>/<name>` between `/repos/` and `/commits`, and it reads back as them when neither holds a `/` |
| `AppFlow.CommitsViewLoads` | src/app/features/commits/commits.component.ts:42-58 | opening the commit view at a repository and receiving its commits shows them, stops loading, and `noResults` holds exactly for an empty list |

## Left out

- HTTP transport, `HttpClient` and the network: each response is an input, a function of the requested URL (`GithubService.Http`).
- `encodeURIComponent`: an uninterpreted parameter `encode`; URL properties hold for any encoder.
- RxJS scheduling, Angular signals and change detection: replaced by explicit events (`ReposComponent.Event`, `CommitsComponent.Event`).
- `GithubService.ForkJoin`: which error surfaces when several repository GETs fail depends on arrival time; the model returns the first failing one in URL order and promises only that the error is one of the failures.
- Numeric coercion `+stars` and `NaN`: a star count is a natural number, and 0 counts as absent.
- `Strings.NatToString`: renders exactly only integers below 10^21, where JavaScript switches to exponent notation; GitHub ids and star counts stay far below that.
- Error responses in the commit view: the error leaves the view through `toSignal`, which is framework behaviour outside these files; only successful responses are modelled.
- The `Authorization` header: the service sets none, although `src/app/core/services/github.service.spec.ts:68` expects one.
- Response caching, local-storage persistence, form reset, `openCommit` and back navigation: none exist in the modelled code.
- Marking form controls touched, templates, styles, PrimeNG modules, routing and dependency-injection configuration: UI wiring with no statable behaviour.

=== FILE: app_flow.dfy ===
/** How the two views and the service fit together: the call a submit makes
    carried out against the service, and the navigation from a chosen
    repository to its commit list. */
module AppFlow {
  import opened Wrappers
  import opened Strings
  import opened GithubModels
  import opened GithubService
  import ReposComponent
  import CommitsComponent

  /** Carries out a service call the search view made. A repository search
      always emits its list when it succeeds; an issue search may complete
      without one. */
  function Perform(http: Http, encode: string -> string, call: ReposComponent.ServiceCall): (f: Fetched<Option<seq<Repository>>>)
    ensures call.SearchRepositoriesCall? ==>
      var g := SearchRepositories(http, encode, call.query, call.language, call.minStars);
      && f.requests == g.requests
      && (f.result.Success? <==> g.result.Success?)
      && (f.result.Success? ==> f.result.value == Some(g.result.value))
      && (f.result.Failure? ==> f.result.error == g.result.error)
    ensures call.SearchReposByIssueTermCall? ==> f == SearchReposByIssueTerm(http, encode, call.term)
  {
    match call
    case SearchRepositoriesCall(query, language, minStars) =>
      var g := SearchRepositories(http, encode, query, language, minStars);
      Fetched(g.requests, g.result.MapValue((repos: seq<Repository>) => Some(repos)))
    case SearchReposByIssueTermCall(term) =>
      SearchReposByIssueTerm(http, encode, term)
  }

  /** A valid submit searching by name requests the repository search with
      the composite of the form's query and its truthy filters, and delivers
      a list whenever it succeeds; searching by issue requests the issue
      search with the form's query, untrimmed. */
  lemma SubmittedSearchRequest(http: Http, encode: string -> string, s: ReposComponent.ReposState)
    requires ReposComponent.FormValid(s.form)
    ensures var call := ReposComponent.OnSubmit(s).1.value;
      var f := Perform(http, encode, call);
      var form := s.form;
      && |f.requests| >= 1
      && (form.searchBy == "issue" ==> ParseUrl(f.requests[0]) == IssueSearch(encode(form.query)))
      && (form.searchBy != "issue" ==>
            && |f.requests| == 1
            && (f.result.Success? ==> f.result.value.Some?)
            && ParseUrl(f.requests[0]) == RepoSearch(encode(ComposeQuery(
                 form.query,
                 ReposComponent.LanguageArgument(form.language),
                 ReposComponent.StarsArgument(form.stars)))))
  {
  }

  /** `Validators.required` lets a query of white space through: the view
      then searches repositories with the empty composite query. */
  lemma WhitespaceQueryIsSearched(http: Http, encode: string -> string)
    ensures var s := ReposComponent.Initial.(form := ReposComponent.FormValue("name", " ", "", ReposComponent.EmptyText));
      && ReposComponent.FormValid(s.form)
      && ParseUrl(Perform(http, encode, ReposComponent.OnSubmit(s).1.value).requests[0]) == RepoSearch(encode(""))
  {
    var form := ReposComponent.FormValue("name", " ", "", ReposComponent.EmptyText);
    var s := ReposComponent.Initial.(form := form);
    var call := ReposComponent.SearchRepositoriesCall(" ", None, None);
    assert ReposComponent.Dispatch(form) == call;
    assert ReposComponent.OnSubmit(s).1 == Some(call);
    assert IsBlank(" ") by {
      assert IsWhitespace(" "[0]);
    }
    assert ComposeQuery(" ", None, None) == "";
    var f := SearchRepositories(http, encode, " ", None, None);
    assert Perform(http, encode, call).requests == f.requests;
  }

  /** Submitting a valid form and letting its search settle shows the
      repositories the service delivered, in full and in its order, or
      nothing if the search failed; either way loading is over. */
  lemma SubmitAndSettle(http: Http, encode: string -> string, s: ReposComponent.ReposState)
    requires ReposComponent.FormValid(s.form)
    ensures var (submitted, call) := ReposComponent.OnSubmit(s);
      var f := Perform(http, encode, call.value);
      var settled := ReposComponent.Run(submitted, ReposComponent.Notifications(f.result)).0;
      && !settled.loading
      && (f.result.Success? && f.result.value.Some? ==> settled.repos == f.result.value.value)
      && (f.result.Failure? || f.result == Success(None) ==> settled.repos == [])
      && (ReposComponent.HasResults(settled) <==>
            f.result.Success? && f.result.value.Some? && |f.result.value.value| > 0)
  {
    var call := ReposComponent.OnSubmit(s).1;
    ReposComponent.SettledSearch(s, Perform(http, encode, call.value).result);
  }

  /** Searching by issue shows one repository per found issue, in issue
      order, each the repository its issue's URL names, duplicates kept. */
  lemma IssueSearchShowsOneRepositoryPerIssue(http: Http, encode: string -> string, s: ReposComponent.ReposState)
    requires ReposComponent.FormValid(s.form) && s.form.searchBy == "issue"
    ensures var (submitted, call) := ReposComponent.OnSubmit(s);
      var f := Perform(http, encode, call.value);
      var found := http.searchIssues(f.requests[0]);
      var settled := ReposComponent.Run(submitted, ReposComponent.Notifications(f.result)).0;
      found.Success? && f.result.Success? ==>
        && |settled.repos| == |found.value.items|
        && forall i :: 0 <= i < |settled.repos| ==>
             settled.repos[i] == http.repository(found.value.items[i].repositoryUrl).value
  {
    SubmitAndSettle(http, encode, s);
  }

  /** Choosing a repository in the search view makes the commit view request
      that repository's commits: the owner's login and the repository's name
      reach `getCommits` unchanged and sit between `/repos/` and `/commits`
      in its URL, which reads back as them when neither holds a `/`. */
  lemma ChosenRepositoryCommitsRequested(http: Http, repo: Repository, s: CommitsComponent.CommitsState)
    ensures var nav := ReposComponent.GoToCommits(repo);
      var request := CommitsComponent.OnParams(s, nav.queryParams).1;
      && nav.commands == ["/commits"]
      && request.owner == repo.owner.login
      && request.repo == repo.name
      && CommitsMiddle(GetCommits(http, request.owner, request.repo).requests[0])
           == Some(repo.owner.login + "/" + repo.name)
      && ('/' !in repo.owner.login && '/' !in repo.name ==>
            ParseUrl(GetCommits(http, request.owner, request.repo).requests[0])
              == CommitList(repo.owner.login, repo.name))
  {
  }

  /** Opening the commit view at a repository and receiving its commits shows
      them and stops loading; "no results" then holds exactly when the list
      is empty. */
  lemma CommitsViewLoads(http: Http, owner: string, repo: string)
    ensures var params := map["owner" := owner, "repo" := repo];
      var (pending, request) := CommitsComponent.OnParams(CommitsComponent.Initial, params);
      var answer := GetCommits(http, request.owner, request.repo).result;
      answer.Success? ==>
        var loaded := CommitsComponent.OnResponse(pending, request.tag, answer.value);
        && request.owner == owner && request.repo == repo
        && !loaded.loading
        && loaded.commits == answer.value
        && (CommitsComponent.NoResults(loaded) <==> |answer.value| == 0)
  {
  }
}

=== FILE: commits_component.dfy ===
/** The commit list view. Its state is the `loading` flag and the commit list
    the view shows; the list starts empty and the view starts loading.

    Every emission of the route's query parameters sets `loading` and starts a
    request for that repository's commits; `switchMap` drops interest in the
    previous request, so only the response to the latest one is ever applied.
    The model makes that explicit with a request tag: each emission issues the
    next tag, and a response carries the tag of the request it answers. */
module CommitsComponent {
  import opened GithubModels

  /** The view's state; `current` is the tag of the latest request (0 before
      any). */
  datatype CommitsState = CommitsState(loading: bool, commits: seq<Commit>, current: nat)

  /** The view as it is created: loading, with no commits. */
  const Initial: CommitsState := CommitsState(true, [], 0)

  /** A `getCommits(owner, repo)` request, tagged. */
  datatype CommitsRequest = CommitsRequest(tag: nat, owner: string, repo: string)

  /** `params[key]` as a template literal renders it: a missing parameter is
      `undefined`. */
  function QueryParam(params: map<string, string>, key: string): string {
    if key in params then params[key] else "undefined"
  }

  /** A parameter emission: set `loading`, then request the commits of
      `params.owner`/`params.repo` under a fresh tag. The list on display
      stays until a response replaces it. */
  function OnParams(s: CommitsState, params: map<string, string>): (r: (CommitsState, CommitsRequest))
    ensures r.0.loading && r.0.commits == s.commits
    ensures r.0.current > s.current && r.1.tag == r.0.current
    ensures r.1.owner == QueryParam(params, "owner") && r.1.repo == QueryParam(params, "repo")
  {
    var tag := s.current + 1;
    (CommitsState(true, s.commits, tag), CommitsRequest(tag, QueryParam(params, "owner"), QueryParam(params, "repo")))
  }

  /** A response to the request tagged `tag`: it replaces the list and clears
      `loading` when it answers the latest request, and is dropped otherwise,
      in particular before any request was made. */
  function OnResponse(s: CommitsState, tag: nat, commits: seq<Commit>): (r: CommitsState)
    ensures Latest(s, tag) ==> !r.loading && r.commits == commits && r.current == s.current
    ensures !Latest(s, tag) ==> r == s
  {
    if Latest(s, tag) then s.(loading := false, commits := commits) else s
  }

  /** `tag` is the tag of the latest request `s` made; tags start at 1. */
  predicate Latest(s: CommitsState, tag: nat) {
    s.current > 0 && tag == s.current
  }

  /** `noResults()`: loading is over and there is no commit to show. */
  predicate NoResults(s: CommitsState) {
    !s.loading && |s.commits| == 0
  }

  /** "No results" is never shown while a request is pending, so never
      before the first response; once the latest request is answered it is
      shown exactly when the answer is empty. */
  lemma NoResultsOnlyAfterEmptyAnswer(s: CommitsState, params: map<string, string>, commits: seq<Commit>)
    ensures !NoResults(Initial)
    ensures var pending := OnParams(s, params).0;
      && !NoResults(pending)
      && (NoResults(OnResponse(pending, pending.current, commits)) <==> |commits| == 0)
  {
  }

  /** What can happen to the view. */
  datatype Event =
    | ParamsChanged(params: map<string, string>)
    | Response(tag: nat, commits: seq<Commit>)

  /** One event: the new state and the request made, if any. */
  function Step(s: CommitsState, e: Event): (CommitsState, seq<CommitsRequest>)
  {
    match e
    case ParamsChanged(params) =>
      var (next, request) := OnParams(s, params);
      (next, [request])
    case Response(tag, commits) => (OnResponse(s, tag, commits), [])
  }

  /** A run of events from the view's creation: the final state and every
      request made, in order. */
  function Run(events: seq<Event>): (CommitsState, seq<CommitsRequest>)
    decreases |events|
  {
    if |events| == 0 then (Initial, [])
    else
      var (before, requests) := Run(events[..|events| - 1]);
      var (after, made) := Step(before, events[|events| - 1]);
      (after, requests + made)
  }

  /** How many parameter emissions `events` holds. */
  function ParamsCount(events: seq<Event>): nat
    decreases |events|
  {
    if |events| == 0 then 0
    else ParamsCount(events[..|events| - 1]) + (if events[|events| - 1].ParamsChanged? then 1 else 0)
  }

  /** The event at `i` answers the request tagged `tag`, a request issued
      before it, and the latest one at that point. */
  predicate AnswersLatest(events: seq<Event>, i: nat, tag: nat)
    requires i < |events|
  {
    tag > 0 && events[i].Response? && events[i].tag == tag && ParamsCount(events[..i]) == tag
  }

  /** What a run of events guarantees: the requests are tagged 1, 2, ... in
      emission order; the view is done loading only once a request was made,
      and exactly when some response answered the latest request after it
      was made; and it then shows the list of such a response. */
  predicate RunConsistent(events: seq<Event>) {
    var (s, requests) := Run(events);
    && s.current == |requests| == ParamsCount(events)
    && (forall k :: 0 <= k < |requests| ==> requests[k].tag == k + 1)
    && (!s.loading ==> s.current >= 1)
    && Answered(events, s)
  }

  /** `s` is done loading exactly when some event of `events` answered its
      latest request, and then shows the list of such an answer. */
  predicate Answered(events: seq<Event>, s: CommitsState) {
    && (!s.loading <==> exists i :: 0 <= i < |events| && AnswersLatest(events, i, s.current))
    && (!s.loading ==>
          exists i :: 0 <= i < |events| && AnswersLatest(events, i, s.current)
                      && events[i].commits == s.commits)
  }

  /** Whatever the order of emissions and responses, only an answer to the
      latest request ends loading and is shown. */
  lemma {:induction false} LatestRequestWins(events: seq<Event>)
    ensures RunConsistent(events)
    decreases |events|
  {
    if |events| > 0 {
      LatestRequestWins(events[..|events| - 1]);
      if events[|events| - 1].ParamsChanged? {
        ParamsStepConsistent(events);
      } else {
        ResponseStepConsistent(events);
      }
    }
  }

  /** A parameter emission keeps a run consistent: it starts loading, and no
      earlier response can answer the request it makes. */
  lemma ParamsStepConsistent(events: seq<Event>)
    requires |events| > 0 && events[|events| - 1].ParamsChanged?
    requires RunConsistent(events[..|events| - 1])
    ensures RunConsistent(events)
  {
    var n := |events| - 1;
    var prefix := events[..n];
    var (before, _) := Run(prefix);
    var (s, _) := Run(events);
    assert s.current == before.current + 1 && s.loading;
    assert ParamsCount(events) == ParamsCount(prefix) + 1;
    forall i | 0 <= i < |events| && AnswersLatest(events, i, s.current)
      ensures false
    {
      assert i < n;
      assert events[..i] == prefix[..i];
      ParamsCountPrefix(prefix, i);
    }
  }

  /** A response keeps a run consistent: it ends loading exactly when it
      answers the latest request, and otherwise changes nothing. */
  lemma ResponseStepConsistent(events: seq<Event>)
    requires |events| > 0 && events[|events| - 1].Response?
    requires RunConsistent(events[..|events| - 1])
    ensures RunConsistent(events)
  {
    if Latest(Run(events[..|events| - 1]).0, events[|events| - 1].tag) {
      AnsweringResponseConsistent(events);
    } else {
      StaleResponseConsistent(events);
    }
  }

  /** A response to the latest request ends loading and shows its list. */
  lemma AnsweringResponseConsistent(events: seq<Event>)
    requires |events| > 0 && events[|events| - 1].Response?
    requires Latest(Run(events[..|events| - 1]).0, events[|events| - 1].tag)
    requires RunConsistent(events[..|events| - 1])
    ensures RunConsistent(events)
  {
    var n := |events| - 1;
    var prefix := events[..n];
    var (s, _) := Run(events);
    assert ParamsCount(events) == ParamsCount(prefix);
    assert events[..n] == prefix;
    assert AnswersLatest(events, n, s.current);
  }

  /** A response to an earlier request is dropped: the state and the
      requests are as before. */
  lemma StaleResponseConsistent(events: seq<Event>)
    requires |events| > 0 && events[|events| - 1].Response?
    requires !Latest(Run(events[..|events| - 1]).0, events[|events| - 1].tag)
    requires RunConsistent(events[..|events| - 1])
    ensures RunConsistent(events)
  {
    var n := |events| - 1;
    var prefix := events[..n];
    assert Run(prefix).1 + [] == Run(prefix).1;
    assert Run(events) == Run(prefix);
    assert ParamsCount(events) == ParamsCount(prefix);
    var s := Run(prefix).0;
    assert !AnswersLatest(events, n, s.current);
    AnsweredUnchanged(events, s);
  }

  /** An event that does not answer the latest request of `s` leaves what
      answered it as it was. */
  lemma AnsweredUnchanged(events: seq<Event>, s: CommitsState)
    requires |events| > 0 && Answered(events[..|events| - 1], s)
    requires !AnswersLatest(events, |events| - 1, s.current)
    ensures Answered(events, s)
  {
    var n := |events| - 1;
    var prefix := events[..n];
    forall i | 0 <= i < n
      ensures AnswersLatest(events, i, s.current) == AnswersLatest(prefix, i, s.current)
    {
      assert events[..i] == prefix[..i];
    }
    if !s.loading {
      var i :| 0 <= i < n && AnswersLatest(prefix, i, s.current) && prefix[i].commits == s.commits;
      assert AnswersLatest(events, i, s.current) && events[i].commits == s.commits;
    }
  }

  /** Until the route emits its parameters no request exists, so no
      response can end loading: the view stays as it was created. */
  lemma {:induction false} NoParamsNoAnswer(events: seq<Event>)
    requires forall i :: 0 <= i < |events| ==> events[i].Response?
    ensures Run(events) == (Initial, [])
    decreases |events|
  {
    if |events| > 0 {
      var n := |events| - 1;
      NoParamsNoAnswer(events[..n]);
      assert Step(Initial, events[n]) == (Initial, []);
      assert Run(events).0 == Initial && |Run(events).1| == 0;
    }
  }

  /** A strict prefix of a run has no more parameter emissions than the run. */
  lemma {:induction false} ParamsCountPrefix(events: seq<Event>, i: nat)
    requires i <= |events|
    ensures ParamsCount(events[..i]) <= ParamsCount(events)
    decreases |events|
  {
    if i < |events| {
      var n := |events| - 1;
      assert events[..n][..i] == events[..i];
      ParamsCountPrefix(events[..n], i);
    } else {
      assert events[..i] == events;
    }
  }
}

=== FILE: github_service.dfy ===
/** The GitHub data-access service: how a search form's values become the
    composite search query, which URLs are requested, and how the responses
    become the lists the views show.

    The HTTP client is the `Http` record: one decoded GET per response type,
    each a function of the requested URL. `encodeURIComponent` is the
    parameter `encode`, left uninterpreted. */
module GithubService {
  import opened Wrappers
  import opened Strings
  import opened GithubModels

  const BaseUrl: string := "https://api.github.com"
  const RepoSearchPath: string := "/search/repositories?q="
  const IssueSearchPath: string := "/search/issues?q="
  const ReposPath: string := "/repos/"
  const CommitsSuffix: string := "/commits"

  // ---------------------------------------------------------------------
  // Composite query of the repository search
  // ---------------------------------------------------------------------

  /** `language` is truthy: present and not the empty string. */
  predicate LanguageGiven(language: Option<string>) {
    language.Some? && language.value != ""
  }

  /** `minStars` is truthy: present and not zero. */
  predicate StarsGiven(minStars: Option<nat>) {
    minStars.Some? && minStars.value != 0
  }

  function LanguageTerm(language: string): string {
    "language:" + language
  }

  function StarsTerm(minStars: nat): string {
    "stars:>=" + NatToString(minStars)
  }

  /** The terms the search pushes, in push order: the trimmed free text when
      it is not blank, then the language qualifier, then the stars qualifier. */
  function QueryTerms(query: string, language: Option<string>, minStars: Option<nat>): (terms: seq<string>)
    ensures |terms| == (if IsBlank(query) then 0 else 1)
                       + (if LanguageGiven(language) then 1 else 0) + (if StarsGiven(minStars) then 1 else 0)
    ensures forall i :: 0 <= i < |terms| ==> terms[i] != ""
    ensures !IsBlank(query) ==> terms[0] == Trim(query)
    ensures LanguageGiven(language) ==> terms[if IsBlank(query) then 0 else 1] == LanguageTerm(language.value)
    ensures StarsGiven(minStars) ==> terms[|terms| - 1] == StarsTerm(minStars.value)
  {
    TrimEmptyIffBlank(query);
    OptionalTerms(
      Trim(query), Trim(query) != "",
      LanguageTerm(language.GetOr("")), LanguageGiven(language),
      StarsTerm(minStars.GetOr(0)), StarsGiven(minStars))
  }

  /** The composite query `terms.join(' ')` sent to the repository search.
      It is empty exactly when the text is blank and no qualifier is truthy;
      `ComposeQueryLayout` places every other character. */
  function ComposeQuery(query: string, language: Option<string>, minStars: Option<nat>): (q: string)
    ensures q == "" <==> IsBlank(query) && !LanguageGiven(language) && !StarsGiven(minStars)
  {
    TrimEmptyIffBlank(query);
    var terms := QueryTerms(query, language, minStars);
    OptionalTermsNonEmpty(
      Trim(query), Trim(query) != "",
      LanguageTerm(language.GetOr("")), LanguageGiven(language),
      StarsTerm(minStars.GetOr(0)), StarsGiven(minStars));
    JoinEmptyIffNoParts(terms, " ");
    Join(terms, " ")
  }

  /** The composite query places the trimmed text first, then the language
      qualifier, then the stars qualifier last, with one space between terms
      that are present and nothing else: every character of the query is
      accounted for. */
  lemma ComposeQueryLayout(query: string, language: Option<string>, minStars: Option<nat>)
    ensures TermsLaidOut(
      ComposeQuery(query, language, minStars),
      Trim(query), !IsBlank(query),
      LanguageTerm(language.GetOr("")), LanguageGiven(language),
      StarsTerm(minStars.GetOr(0)), StarsGiven(minStars))
  {
    TrimEmptyIffBlank(query);
    OptionalTermsLayout(
      Trim(query), !IsBlank(query),
      LanguageTerm(language.GetOr("")), LanguageGiven(language),
      StarsTerm(minStars.GetOr(0)), StarsGiven(minStars));
  }

  /** The present ones of three terms, in order. */
  function OptionalTerms(a: string, hasA: bool, b: string, hasB: bool, c: string, hasC: bool): seq<string>
  {
    (if hasA then [a] else []) + (if hasB then [b] else []) + (if hasC then [c] else [])
  }

  /** The present ones of three non-empty terms are non-empty, and there are
      none exactly when all three are absent. */
  lemma OptionalTermsNonEmpty(a: string, hasA: bool, b: string, hasB: bool, c: string, hasC: bool)
    requires hasA ==> a != ""
    requires hasB ==> b != ""
    requires hasC ==> c != ""
    ensures var parts := OptionalTerms(a, hasA, b, hasB, c, hasC);
      && (forall i :: 0 <= i < |parts| ==> parts[i] != "")
      && (|parts| == 0 <==> !hasA && !hasB && !hasC)
  {
  }

  /** `q` is the present ones of the terms `a`, `b`, `c`, in that order, with
      one space between neighbours: `a` opens it, `b` follows `a` (or opens
      it), `c` closes it, and the length leaves room for nothing else. */
  predicate TermsLaidOut(q: string, a: string, hasA: bool, b: string, hasB: bool, c: string, hasC: bool)
  {
    && (hasA ==> |a| <= |q| && q[..|a|] == a && (hasB || hasC ==> |a| < |q| && q[|a|] == ' '))
    && (hasB ==>
          var p := if hasA then |a| + 1 else 0;
          p + |b| <= |q| && q[p..p + |b|] == b && (hasC ==> p + |b| < |q| && q[p + |b|] == ' '))
    && (hasC ==> |c| <= |q| && q[|q| - |c|..] == c)
    && |q| == (if hasA then |a| + 1 else 0) + (if hasB then |b| + 1 else 0) + (if hasC then |c| + 1 else 0)
              - (if q == "" then 0 else 1)
  }

  /** Joining the present ones of three non-empty terms with spaces lays
      them out as `TermsLaidOut` describes. */
  lemma OptionalTermsLayout(a: string, hasA: bool, b: string, hasB: bool, c: string, hasC: bool)
    requires hasA ==> a != ""
    requires hasB ==> b != ""
    requires hasC ==> c != ""
    ensures TermsLaidOut(Join(OptionalTerms(a, hasA, b, hasB, c, hasC), " "), a, hasA, b, hasB, c, hasC)
  {
    var parts := OptionalTerms(a, hasA, b, hasB, c, hasC);
    JoinLayout(parts);
    var q := Join(parts, " ");
    if hasA && hasB && hasC {
      assert parts == [a, b, c];
      assert q == a + " " + b + " " + c;
    } else if hasA && hasB {
      assert parts == [a, b];
      assert q == a + " " + b;
    } else if hasA && hasC {
      assert parts == [a, c];
      assert q == a + " " + c;
    } else if hasB && hasC {
      assert parts == [b, c];
      assert q == b + " " + c;
    } else if hasA {
      assert parts == [a];
    } else if hasB {
      assert parts == [b];
    } else if hasC {
      assert parts == [c];
    } else {
      assert parts == [];
    }
  }

  /** `Join` on at most three parts, spelled out. */
  lemma JoinLayout(parts: seq<string>)
    requires |parts| <= 3
    ensures |parts| == 0 ==> Join(parts, " ") == ""
    ensures |parts| == 1 ==> Join(parts, " ") == parts[0]
    ensures |parts| == 2 ==> Join(parts, " ") == parts[0] + " " + parts[1]
    ensures |parts| == 3 ==> Join(parts, " ") == parts[0] + " " + parts[1] + " " + parts[2]
  {
    if |parts| == 2 {
      JoinPair(parts[0], parts[1]);
      assert parts == [parts[0], parts[1]];
    } else if |parts| == 3 {
      JoinTriple(parts[0], parts[1], parts[2]);
      assert parts == [parts[0], parts[1], parts[2]];
    }
  }

  lemma JoinPair(a: string, b: string)
    ensures Join([a, b], " ") == a + " " + b
  {
    assert [a, b][1..] == [b];
  }

  lemma JoinTriple(a: string, b: string, c: string)
    ensures Join([a, b, c], " ") == a + " " + b + " " + c
  {
    assert [a, b, c][1..] == [b, c];
    JoinPair(b, c);
  }

  /** A blank free text contributes no term: the composite query is only the
      qualifiers, and the empty string when there are none. */
  lemma BlankQueryAddsNoTerm(query: string, language: Option<string>, minStars: Option<nat>)
    requires IsBlank(query)
    ensures ComposeQuery(query, language, minStars) == ComposeQuery("", language, minStars)
    ensures !LanguageGiven(language) && !StarsGiven(minStars) ==> ComposeQuery(query, language, minStars) == ""
  {
    TrimEmptyIffBlank(query);
  }

  /** An empty language and a zero star count are the same as leaving the
      qualifier out. */
  lemma FalsyQualifiersOmitted(query: string, language: Option<string>, minStars: Option<nat>)
    ensures ComposeQuery(query, Some(""), minStars) == ComposeQuery(query, None, minStars)
    ensures ComposeQuery(query, language, Some(0)) == ComposeQuery(query, language, None)
  {
  }

  /** Adding a language qualifier inserts `language:<l>` right after the free
      text (or at the front), with one space, and leaves the rest as it was. */
  lemma LanguageQualifierInserted(query: string, language: string, minStars: Option<nat>)
    requires language != ""
    ensures var without := ComposeQuery(query, None, minStars);
      var with := ComposeQuery(query, Some(language), minStars);
      var t := Trim(query);
      if IsBlank(query) then
        with == LanguageTerm(language) + (if without == "" then "" else " " + without)
      else
        |t| <= |without| && with == without[..|t|] + " " + LanguageTerm(language) + without[|t|..]
  {
    TrimEmptyIffBlank(query);
    var t := Trim(query);
    var lt := LanguageTerm(language);
    var rest: seq<string> := if StarsGiven(minStars) then [StarsTerm(minStars.value)] else [];
    if IsBlank(query) {
      assert QueryTerms(query, None, minStars) == rest;
      assert QueryTerms(query, Some(language), minStars) == [lt] + rest;
      JoinInsertFront(lt, rest);
      JoinLayout(rest);
      if |rest| > 0 {
        assert lt + " " + Join(rest, " ") == lt + (" " + Join(rest, " "));
      }
    } else {
      assert QueryTerms(query, None, minStars) == [t] + rest;
      assert QueryTerms(query, Some(language), minStars) == [t, lt] + rest;
      JoinInsertSecond(t, lt, rest);
    }
  }

  /** Putting a part in front of a space-joined list adds that part, and
      one space when the list has parts. */
  lemma JoinInsertFront(x: string, rest: seq<string>)
    ensures |rest| == 0 ==> Join([x] + rest, " ") == x
    ensures |rest| > 0 ==> Join([x] + rest, " ") == x + " " + Join(rest, " ")
  {
    var parts := [x] + rest;
    if |rest| == 0 {
      assert parts == [x];
    } else {
      assert parts[1..] == rest;
    }
  }

  /** Putting a part second in a space-joined list inserts that part and one
      space right after the first part. */
  lemma JoinInsertSecond(h: string, x: string, rest: seq<string>)
    ensures var without := Join([h] + rest, " ");
      |h| <= |without| && Join([h, x] + rest, " ") == without[..|h|] + " " + x + without[|h|..]
  {
    JoinInsertFront(h, rest);
    JoinInsertFront(x, rest);
    assert [h, x] + rest == [h] + ([x] + rest);
    JoinInsertFront(h, [x] + rest);
    var without := Join([h] + rest, " ");
    if |rest| == 0 {
      assert without[..|h|] == h && without[|h|..] == "";
    } else {
      var tail := " " + Join(rest, " ");
      assert without == h + tail;
      assert without[..|h|] == h && without[|h|..] == tail;
    }
  }

  /** Adding a stars qualifier appends ` stars:>=<n>` (without the space when
      nothing precedes it) and leaves the rest as it was. */
  lemma StarsQualifierAppended(query: string, language: Option<string>, minStars: nat)
    requires minStars != 0
    ensures var without := ComposeQuery(query, language, None);
      ComposeQuery(query, language, Some(minStars))
        == without + (if without == "" then "" else " ") + StarsTerm(minStars)
  {
    var a, hasA := Trim(query), Trim(query) != "";
    var b, hasB := LanguageTerm(language.GetOr("")), LanguageGiven(language);
    var st := StarsTerm(minStars);
    var before := OptionalTerms(a, hasA, b, hasB, StarsTerm(0), false);
    var after := OptionalTerms(a, hasA, b, hasB, st, true);
    assert QueryTerms(query, language, None) == before;
    assert QueryTerms(query, language, Some(minStars)) == after;
    assert after == before + [st];
    var without := Join(before, " ");
    if |before| == 0 {
      assert after == [st];
      assert without == "";
    } else {
      JoinSnoc(before, st, " ");
      OptionalTermsNonEmpty(a, hasA, b, hasB, StarsTerm(0), false);
      JoinEmptyIffNoParts(before, " ");
    }
  }

  /** Surrounding white space of the free text never reaches the query. */
  lemma ComposeQueryIgnoresSurroundingSpace(query: string, language: Option<string>, minStars: Option<nat>)
    ensures ComposeQuery(Trim(query), language, minStars) == ComposeQuery(query, language, minStars)
  {
    TrimIdempotent(query);
  }

  /** When no term holds a space, splitting the composite query on spaces
      gives back the terms in order: single spaces are exactly the separators. */
  lemma ComposeQuerySplitsIntoTerms(query: string, language: Option<string>, minStars: Option<nat>)
    requires var terms := QueryTerms(query, language, minStars);
      |terms| > 0 && forall i :: 0 <= i < |terms| ==> ' ' !in terms[i]
    ensures Split(ComposeQuery(query, language, minStars), ' ') == QueryTerms(query, language, minStars)
  {
    SplitJoin(QueryTerms(query, language, minStars), ' ');
  }

  // ---------------------------------------------------------------------
  // Request URLs and their reading back
  // ---------------------------------------------------------------------

  /** The repository-search URL; it reads back as the search of exactly the
      encoded composite query. */
  function RepoSearchUrl(encode: string -> string, q: string): (url: string)
    ensures ParseUrl(url) == RepoSearch(encode(q))
  {
    var path := RepoSearchPath + encode(q);
    ParseUnderBase(path);
    assert path[|RepoSearchPath|..] == encode(q);
    BaseUrl + path
  }

  /** The issue-search URL; it reads back as the search of exactly the
      encoded term, as given. */
  function IssueSearchUrl(encode: string -> string, term: string): (url: string)
    ensures ParseUrl(url) == IssueSearch(encode(term))
  {
    var path := IssueSearchPath + encode(term);
    ParseUnderBase(path);
    assert path[8] == 'i' != RepoSearchPath[8];
    assert path[|IssueSearchPath|..] == encode(term);
    BaseUrl + path
  }

  /** The commits URL. The owner and repository name are interpolated
      without encoding: whatever they hold, the text between `/repos/` and
      `/commits` is `<owner>/<repo>`, and the URL reads back as the pair
      itself only when neither holds a `/`. */
  function CommitsUrl(owner: string, repo: string): (url: string)
    ensures CommitsMiddle(url) == Some(owner + "/" + repo)
    ensures '/' !in owner && '/' !in repo ==> ParseUrl(url) == CommitList(owner, repo)
    ensures ParseUrl(url).CommitList? || ParseUrl(url) == Unrecognised
  {
    var middle := owner + "/" + repo;
    var path := ReposPath + middle + CommitsSuffix;
    ParseUnderBase(path);
    ParseCommitsPath(middle);
    ParseOwnerRepoRoundTrip(owner, repo);
    BaseUrl + path
  }

  /** What a URL asks the API for, as far as this application is concerned. */
  datatype Endpoint =
    | RepoSearch(encodedQuery: string)
    | IssueSearch(encodedTerm: string)
    | CommitList(owner: string, repo: string)
    | Unrecognised

  /** Reads a request URL back into the endpoint and arguments it names. */
  function ParseUrl(url: string): Endpoint
  {
    if BaseUrl <= url then ParsePath(url[|BaseUrl|..]) else Unrecognised
  }

  /** Reads the part of a URL after the API root. */
  function ParsePath(path: string): Endpoint
  {
    if RepoSearchPath <= path then RepoSearch(path[|RepoSearchPath|..])
    else if IssueSearchPath <= path then IssueSearch(path[|IssueSearchPath|..])
    else match PathMiddle(path)
      case Some(middle) => ParseOwnerRepo(middle)
      case None => Unrecognised
  }

  /** The text between `/repos/` and `/commits` of a commits path, if the
      path has that shape. */
  function PathMiddle(path: string): Option<string>
  {
    if ReposPath <= path && |ReposPath| + |CommitsSuffix| <= |path|
       && path[|path| - |CommitsSuffix|..] == CommitsSuffix
    then Some(path[|ReposPath|..|path| - |CommitsSuffix|])
    else None
  }

  /** The text between `/repos/` and `/commits` of a commits URL, whatever
      it holds. */
  function CommitsMiddle(url: string): Option<string>
  {
    if BaseUrl <= url then PathMiddle(url[|BaseUrl|..]) else None
  }

  /** Reads `<owner>/<repo>` with exactly one `/`. */
  function ParseOwnerRepo(middle: string): Endpoint
  {
    match FindChar(middle, '/')
    case None => Unrecognised
    case Some(i) =>
      if '/' in middle[i + 1..] then Unrecognised
      else CommitList(middle[..i], middle[i + 1..])
  }

  /** A URL under the API root is read by its path. */
  lemma ParseUnderBase(path: string)
    ensures ParseUrl(BaseUrl + path) == ParsePath(path)
    ensures CommitsMiddle(BaseUrl + path) == PathMiddle(path)
  {
    assert (BaseUrl + path)[|BaseUrl|..] == path;
  }

  /** `<owner>/<repo>` reads back as the pair when neither holds a `/`. */
  lemma ParseOwnerRepoRoundTrip(owner: string, repo: string)
    ensures '/' !in owner && '/' !in repo ==>
      ParseOwnerRepo(owner + "/" + repo) == CommitList(owner, repo)
  {
    if '/' !in owner && '/' !in repo {
      var middle := owner + "/" + repo;
      FindCharAfterPrefix(owner, '/', repo);
      assert middle[..|owner|] == owner;
      assert middle[|owner| + 1..] == repo;
    }
  }

  /** A commits path is read by what lies between `/repos/` and `/commits`. */
  lemma ParseCommitsPath(middle: string)
    ensures PathMiddle(ReposPath + middle + CommitsSuffix) == Some(middle)
    ensures ParsePath(ReposPath + middle + CommitsSuffix) == ParseOwnerRepo(middle)
  {
    var path := ReposPath + middle + CommitsSuffix;
    assert path[1] == 'r' != RepoSearchPath[1];
    assert path[1] != IssueSearchPath[1];
    assert path[..|ReposPath|] == ReposPath;
    assert path[|path| - |CommitsSuffix|..] == CommitsSuffix;
    assert path[|ReposPath|..|path| - |CommitsSuffix|] == middle;
  }

  /** Because the path segments are not encoded, a `/` inside an owner or
      repository name makes two different pairs request the same URL. */
  lemma CommitsUrlAmbiguousWithSlash()
    ensures CommitsUrl("a/b", "c") == CommitsUrl("a", "b/c")
  {
    assert "a/b" + "/" + "c" == "a" + "/" + "b/c";
  }

  // ---------------------------------------------------------------------
  // The service operations
  // ---------------------------------------------------------------------

  /** The HTTP client: the decoded answer to a GET of each URL, per response
      type. The same URL always gets the same answer. */
  datatype Http = Http(
    searchRepositories: string -> Result<SearchRepositoriesResponse, HttpError>,
    searchIssues: string -> Result<SearchIssuesResponse, HttpError>,
    repository: string -> Result<Repository, HttpError>,
    commits: string -> Result<seq<Commit>, HttpError>)

  /** What an operation did: the URLs it requested, in order, and what its
      observable delivered. */
  datatype Fetched<T> = Fetched(requests: seq<string>, result: Result<T, HttpError>)

  /** `searchRepositories(query, language, minStars)`: one GET of the
      repository search with the encoded composite query, answered by the
      response's `items`, unchanged. */
  function SearchRepositories(
    http: Http, encode: string -> string,
    query: string, language: Option<string>, minStars: Option<nat>
  ): (f: Fetched<seq<Repository>>)
    ensures |f.requests| == 1
    ensures ParseUrl(f.requests[0]) == RepoSearch(encode(ComposeQuery(query, language, minStars)))
    ensures var response := http.searchRepositories(f.requests[0]);
      && (f.result.Success? <==> response.Success?)
      && (f.result.Success? ==> f.result.value == response.value.items)
      && (f.result.Failure? ==> f.result.error == response.error)
  {
    var url := RepoSearchUrl(encode, ComposeQuery(query, language, minStars));
    Fetched([url], http.searchRepositories(url).MapValue((page: SearchRepositoriesResponse) => page.items))
  }

  /** The repository URL of each issue, one per issue, in issue order. */
  function RepositoryUrls(issues: seq<Issue>): (urls: seq<string>)
    ensures |urls| == |issues|
    ensures forall i :: 0 <= i < |issues| ==> urls[i] == issues[i].repositoryUrl
  {
    seq(|issues|, i requires 0 <= i < |issues| => issues[i].repositoryUrl)
  }

  /** One repository GET per URL, all or nothing: all the repositories, in
      URL order, when every GET succeeds, and a failure as soon as one
      fails. */
  function FetchAll(http: Http, urls: seq<string>): (r: Result<seq<Repository>, HttpError>)
    ensures r.Success? <==> forall i :: 0 <= i < |urls| ==> http.repository(urls[i]).Success?
    ensures r.Success? ==>
      && |r.value| == |urls|
      && forall i :: 0 <= i < |urls| ==> r.value[i] == http.repository(urls[i]).value
    ensures r.Failure? ==> exists i :: 0 <= i < |urls| && http.repository(urls[i]) == Failure(r.error)
    decreases |urls|
  {
    if |urls| == 0 then Success([])
    else match http.repository(urls[0])
      case Failure(e) => Failure(e)
      case Success(first) =>
        match FetchAll(http, urls[1..])
        case Failure(e) => Failure(e)
        case Success(rest) => Success([first] + rest)
  }

  /** `forkJoin` of one repository GET per URL. `Success(None)` is an
      observable that completes without emitting, which is what `forkJoin`
      of an empty list does; otherwise it emits the repositories of
      `FetchAll` or fails with it. */
  function ForkJoin(http: Http, urls: seq<string>): (r: Result<Option<seq<Repository>>, HttpError>)
    ensures |urls| == 0 <==> r == Success(None)
    ensures r.Success? <==> forall i :: 0 <= i < |urls| ==> http.repository(urls[i]).Success?
    ensures r.Success? && |urls| > 0 ==>
      && r.value.Some?
      && |r.value.value| == |urls|
      && forall i :: 0 <= i < |urls| ==> r.value.value[i] == http.repository(urls[i]).value
    ensures r.Failure? ==> exists i :: 0 <= i < |urls| && http.repository(urls[i]) == Failure(r.error)
  {
    if |urls| == 0 then Success(None)
    else FetchAll(http, urls).MapValue((repos: seq<Repository>) => Some(repos))
  }

  /** `searchReposByIssueTerm(term)`: a GET of the issue search with the
      encoded raw term, then one GET per found issue's repository URL, joined
      into one list in issue order. When no issue is found it completes
      without emitting a list. */
  function SearchReposByIssueTerm(http: Http, encode: string -> string, term: string): (f: Fetched<Option<seq<Repository>>>)
    ensures |f.requests| >= 1
    ensures ParseUrl(f.requests[0]) == IssueSearch(encode(term))
    ensures var found := http.searchIssues(f.requests[0]);
      found.Failure? ==> |f.requests| == 1 && f.result == Failure(found.error)
    ensures var found := http.searchIssues(f.requests[0]);
      found.Success? ==>
        var issues := found.value.items;
        && |f.requests| == 1 + |issues|
        && (forall i :: 0 <= i < |issues| ==> f.requests[1 + i] == issues[i].repositoryUrl)
        && (|issues| == 0 <==> f.result == Success(None))
        && (f.result.Success? <==>
              forall i :: 0 <= i < |issues| ==> http.repository(issues[i].repositoryUrl).Success?)
        && (f.result.Success? && |issues| > 0 ==>
              && f.result.value.Some?
              && |f.result.value.value| == |issues|
              && forall i :: 0 <= i < |issues| ==>
                   f.result.value.value[i] == http.repository(issues[i].repositoryUrl).value)
  {
    var url := IssueSearchUrl(encode, term);
    match http.searchIssues(url)
    case Failure(e) => Fetched([url], Failure(e))
    case Success(page) =>
      var urls := RepositoryUrls(page.items);
      Fetched([url] + urls, ForkJoin(http, urls))
  }

  /** `getCommits(owner, repo)`: one GET of the repository's commit list,
      answered by the response as it is. */
  function GetCommits(http: Http, owner: string, repo: string): (f: Fetched<seq<Commit>>)
    ensures |f.requests| == 1
    ensures CommitsMiddle(f.requests[0]) == Some(owner + "/" + repo)
    ensures '/' !in owner && '/' !in repo ==> ParseUrl(f.requests[0]) == CommitList(owner, repo)
    ensures f.result == http.commits(f.requests[0])
  {
    var url := CommitsUrl(owner, repo);
    Fetched([url], http.commits(url))
  }

  /** The three endpoints never share a URL, whatever the arguments: each
      URL reads back as a different kind of endpoint. */
  lemma EndpointsDistinct(encode: string -> string, q: string, term: string, owner: string, repo: string)
    ensures RepoSearchUrl(encode, q) != IssueSearchUrl(encode, term)
    ensures RepoSearchUrl(encode, q) != CommitsUrl(owner, repo)
    ensures IssueSearchUrl(encode, term) != CommitsUrl(owner, repo)
  {
  }
}

=== FILE: models.dfy ===
/** The entities the GitHub REST API returns, with the fields the application
    declares for them. Numbers the API sends as JSON integers are `nat`. */
module GithubModels {
  import opened Wrappers

  /** The account that owns a repository or authored a commit. */
  datatype Account = Account(login: string, avatarUrl: string, htmlUrl: string)

  /** A repository as returned by the search and repository endpoints. */
  datatype Repository = Repository(
    id: nat,
    name: string,
    fullName: string,
    htmlUrl: string,
    createdAt: string,
    stargazersCount: nat,
    language: string,
    owner: Account)

  /** One page of the repository search: only `items` is used. */
  datatype SearchRepositoriesResponse = SearchRepositoriesResponse(
    totalCount: nat,
    incompleteResults: bool,
    items: seq<Repository>)

  /** An issue found by the issue search; `repositoryUrl` is the API URL of
      the repository the issue belongs to. */
  datatype Issue = Issue(id: nat, title: string, repositoryUrl: string)

  /** One page of the issue search. */
  datatype SearchIssuesResponse = SearchIssuesResponse(
    totalCount: nat,
    incompleteResults: bool,
    items: seq<Issue>)

  /** The git-level author recorded in a commit. */
  datatype GitAuthor = GitAuthor(name: string, date: string)

  /** The git commit data: its author and message. */
  datatype CommitDetail = CommitDetail(author: GitAuthor, message: string)

  /** A commit of a repository. `author` is the linked GitHub account, absent
      (`null`) when the commit's author matches no account. */
  datatype Commit = Commit(
    sha: string,
    htmlUrl: string,
    commit: CommitDetail,
    author: Option<Account>)

  /** A failed HTTP exchange: a non-success status, a network failure (status 0)
      or a body that could not be read. */
  datatype HttpError = HttpError(status: nat, message: string)
}

=== FILE: repos_component.dfy ===
/** The repository search view: a reactive form, the `submitted` and
    `loading` flags and the list of repositories shown.

    The view is a state record and its behaviour a set of pure transitions,
    one per thing that can happen to it: the user edits the form, submits it,
    or the search it subscribed to emits a list, completes or fails. A submit
    does not run the search; it returns the service call to make, and the
    answer comes back later as events. */
module ReposComponent {
  import opened Wrappers
  import opened Strings
  import opened GithubModels
  import GithubService

  /** The value of the `stars` control: the empty text it is created with,
      `null` (what a cleared number input holds) or a number. */
  datatype StarsInput = EmptyText | NullValue | Number(n: nat)

  /** The search form's value. `searchBy` is `"name"` or `"issue"` from the
      drop-down, but any string is accepted. */
  datatype FormValue = FormValue(searchBy: string, query: string, language: string, stars: StarsInput)

  /** The form as the view builds it. */
  const InitialForm: FormValue := FormValue("name", "", "", EmptyText)

  /** Angular's `Validators.required` on a string control: only the empty
      string fails it, so white space alone passes. */
  predicate Required(value: string) {
    value != ""
  }

  /** `searchBy` and `query` carry `Validators.required`; `language` and
      `stars` carry no validator. */
  predicate FormValid(form: FormValue) {
    Required(form.searchBy) && Required(form.query)
  }

  /** A call of the search service, with its arguments. */
  datatype ServiceCall =
    | SearchRepositoriesCall(query: string, language: Option<string>, minStars: Option<nat>)
    | SearchReposByIssueTermCall(term: string)

  /** `language || undefined`: the empty string is the only falsy string,
      so the language is passed exactly when it is not empty, and as it is. */
  function LanguageArgument(language: string): (a: Option<string>)
    ensures a.Some? <==> language != ""
    ensures a.Some? ==> a.value == language
    ensures !GithubService.LanguageGiven(a) ==> a == None
  {
    if language != "" then Some(language) else None
  }

  /** `stars ? +stars : undefined`: the empty text, `null` and zero are falsy,
      so a count is passed exactly when the control holds a non-zero number,
      and it is that number. */
  function StarsArgument(stars: StarsInput): (a: Option<nat>)
    ensures a.Some? <==> stars.Number? && stars.n != 0
    ensures a.Some? ==> stars == Number(a.value)
    ensures !GithubService.StarsGiven(a) ==> a == None
  {
    match stars
    case Number(n) => if n != 0 then Some(n) else None
    case _ => None
  }

  /** The service call a submit makes: the issue search with the raw query
      when `searchBy` is exactly `"issue"`, otherwise the repository search
      with the raw query and only the truthy filters. */
  function Dispatch(form: FormValue): (call: ServiceCall)
    ensures call.SearchReposByIssueTermCall? <==> form.searchBy == "issue"
    ensures call.SearchReposByIssueTermCall? ==> call.term == form.query
    ensures call.SearchRepositoriesCall? ==>
      && call.query == form.query
      && (call.language.Some? <==> form.language != "")
      && (call.language.Some? ==> call.language.value == form.language)
      && (call.minStars.Some? <==> form.stars.Number? && form.stars.n != 0)
      && (call.minStars.Some? ==> form.stars == Number(call.minStars.value))
  {
    if form.searchBy == "issue" then SearchReposByIssueTermCall(form.query)
    else SearchRepositoriesCall(form.query, LanguageArgument(form.language), StarsArgument(form.stars))
  }

  /** The view's state. */
  datatype ReposState = ReposState(
    form: FormValue,
    submitted: bool,
    loading: bool,
    repos: seq<Repository>)

  /** The view as it is created. */
  const Initial: ReposState := ReposState(InitialForm, false, false, [])

  /** `hasResults()`: there is a repository to show. */
  predicate HasResults(s: ReposState) {
    |s.repos| > 0
  }

  /** The view starts with the default form, which cannot be submitted until
      a query is typed, and with nothing loading or shown. */
  lemma InitialFormInvalid()
    ensures InitialForm.searchBy == "name" && InitialForm.query == "" && InitialForm.language == ""
    ensures InitialForm.stars == EmptyText
    ensures !FormValid(InitialForm)
    ensures forall f: FormValue :: f.query == "" || f.searchBy == "" ==> !FormValid(f)
    ensures !Initial.submitted && !Initial.loading && !HasResults(Initial)
  {
  }

  /** `trackByRepo(index, repo)`: the repository's id as a decimal string
      without leading zeros, the canonical rendering of `toString`. The key
      reads back as the id, so it identifies the repository and ignores the
      index. */
  function TrackByRepo(index: int, repo: Repository): (key: string)
    ensures ParseNat(key) == Some(repo.id)
    ensures |key| > 1 ==> key[0] != '0'
  {
    ParseNatToString(repo.id);
    NatToString(repo.id)
  }

  /** Two rows get the same key exactly when their repositories share an id. */
  lemma TrackByRepoKeysIdentify(i: int, a: Repository, j: int, b: Repository)
    ensures TrackByRepo(i, a) == TrackByRepo(j, b) <==> a.id == b.id
  {
    NatToStringInjective(a.id, b.id);
  }

  /** `onSubmit()`: nothing at all on an invalid form; otherwise mark the view
      submitted and loading, clear the list, then make the dispatched call. */
  function OnSubmit(s: ReposState): (r: (ReposState, Option<ServiceCall>))
    ensures !FormValid(s.form) ==> r.0 == s && r.1 == None
    ensures FormValid(s.form) ==>
      && r.0.submitted && r.0.loading && r.0.repos == [] && r.0.form == s.form
      && r.1 == Some(Dispatch(s.form))
  {
    if !FormValid(s.form) then (s, None)
    else (s.(submitted := true, loading := true, repos := []), Some(Dispatch(s.form)))
  }

  /** What can happen to the view. `Next`, `Complete` and `Error` are the
      notifications of a search the view subscribed to; nothing ties them to
      the submit that started that search. */
  datatype Event =
    | Edit(form: FormValue)
    | Submit
    | Next(repos: seq<Repository>)
    | Complete
    | Error(error: HttpError)

  /** One event: the new state and the service call made, if any. */
  function Step(s: ReposState, e: Event): (r: (ReposState, Option<ServiceCall>))
    ensures e.Next? ==> r.0 == s.(repos := e.repos) && r.1 == None
    ensures e.Complete? || e.Error? ==> r.0 == s.(loading := false) && r.1 == None
    ensures e.Edit? ==> r.0 == s.(form := e.form) && r.1 == None
    ensures e.Submit? ==> r == OnSubmit(s)
    ensures r.1.Some? ==> e.Submit? && FormValid(s.form)
  {
    match e
    case Edit(form) => (s.(form := form), None)
    case Submit => OnSubmit(s)
    case Next(repos) => (s.(repos := repos), None)
    case Complete => (s.(loading := false), None)
    case Error(_) => (s.(loading := false), None)
  }

  /** A run of events from `s`: the final state and every service call made,
      in order. */
  function Run(s: ReposState, events: seq<Event>): (ReposState, seq<ServiceCall>)
    decreases |events|
  {
    if |events| == 0 then (s, [])
    else
      var (before, calls) := Run(s, events[..|events| - 1]);
      var (after, call) := Step(before, events[|events| - 1]);
      (after, calls + (if call.Some? then [call.value] else []))
  }

  /** The text a call searches with. */
  function CallText(call: ServiceCall): string {
    match call
    case SearchRepositoriesCall(query, _, _) => query
    case SearchReposByIssueTermCall(term) => term
  }

  /** From the view's creation, whatever happens: a search is never made with
      an empty query, and the view reads `submitted` exactly when it has made
      a search. */
  lemma {:induction false} SearchesNeedQuery(events: seq<Event>)
    ensures var (s, calls) := Run(Initial, events);
      && (forall k :: 0 <= k < |calls| ==> CallText(calls[k]) != "")
      && (s.submitted <==> |calls| > 0)
    decreases |events|
  {
    if |events| > 0 {
      SearchesNeedQuery(events[..|events| - 1]);
    }
  }

  /** The notifications a subscriber receives from a search that settles
      with `outcome`: the list then completion, completion alone when the
      search ends without emitting a list (`Success(None)`), or the error
      alone. */
  function Notifications(outcome: Result<Option<seq<Repository>>, HttpError>): seq<Event> {
    match outcome
    case Success(Some(repos)) => [Next(repos), Complete]
    case Success(None) => [Complete]
    case Failure(e) => [Error(e)]
  }

  /** A submitted search that settles, with no other search in flight, leaves
      the view not loading, showing the delivered list in full, or nothing
      when the search failed or delivered no list. */
  lemma SettledSearch(s: ReposState, outcome: Result<Option<seq<Repository>>, HttpError>)
    requires FormValid(s.form)
    ensures var submitted := OnSubmit(s).0;
      var settled := Run(submitted, Notifications(outcome)).0;
      && !settled.loading
      && settled.submitted
      && settled.form == s.form
      && (outcome.Success? && outcome.value.Some? ==> settled.repos == outcome.value.value)
      && (outcome.Failure? || outcome == Success(None) ==> settled.repos == [])
      && (HasResults(settled) <==> outcome.Success? && outcome.value.Some? && |outcome.value.value| > 0)
  {
    var submitted := OnSubmit(s).0;
    var events := Notifications(outcome);
    if outcome.Success? && outcome.value.Some? {
      assert events[..1] == [Next(outcome.value.value)];
      assert events[..1][..0] == [];
      assert Run(submitted, events[..1]).0 == submitted.(repos := outcome.value.value);
    } else {
      assert events[..0] == [];
      assert Run(submitted, events).0 == submitted.(loading := false);
    }
  }

  /** A search that ends without emitting does not clear what another search
      showed: with two searches in flight, when one delivers `earlier` and
      completes and the other then completes without a list (an issue search
      that found no issue), `earlier` stays on display. */
  lemma SilentCompletionKeepsEarlierList(s: ReposState, earlier: seq<Repository>)
    requires FormValid(s.form)
    ensures var events := [Submit, Submit, Next(earlier), Complete] + Notifications(Success(None));
      var r := Run(s, events).0;
      r.repos == earlier && !r.loading
  {
    var events := [Submit, Submit, Next(earlier), Complete] + Notifications(Success(None));
    var once := OnSubmit(s).0;
    var twice := OnSubmit(once).0;
    assert events[..1][..0] == [];
    assert Run(s, events[..1]).0 == once;
    assert events[..2][..1] == events[..1];
    assert Run(s, events[..2]).0 == twice;
    assert events[..3][..2] == events[..2];
    assert Run(s, events[..3]).0 == twice.(repos := earlier);
    assert events[..4][..3] == events[..3];
    assert Run(s, events[..4]).0 == twice.(repos := earlier, loading := false);
    assert events[..4] == events[..|events| - 1];
  }

  /** Two searches in flight are not told apart: whichever list arrives last
      is shown, even when it answers the older search. */
  lemma LastArrivalWins(s: ReposState, older: seq<Repository>, newer: seq<Repository>)
    requires FormValid(s.form)
    ensures Run(s, [Submit, Submit, Next(newer), Complete, Next(older), Complete]).0.repos == older
  {
    var events := [Submit, Submit, Next(newer), Complete, Next(older), Complete];
    assert events[..5][..4][..3][..2][..1][..0] == [];
  }

  /** The first search to complete clears `loading` while the second is still
      in flight. */
  lemma FirstCompletionClearsLoading(s: ReposState)
    requires FormValid(s.form)
    ensures var r := Run(s, [Submit, Submit, Complete]).0;
      !r.loading && r.submitted
  {
    var events := [Submit, Submit, Complete];
    assert events[..2][..1][..0] == [];
    var once := OnSubmit(s).0;
    assert Run(s, events[..1]).0 == once;
    assert Run(s, events[..2]).0 == OnSubmit(once).0;
  }

  /** Where `goToCommits` navigates. */
  datatype Navigation = Navigation(commands: seq<string>, queryParams: map<string, string>)

  /** `goToCommits(repo)`: to `/commits` with the owner's login and the
      repository's name as query parameters. */
  function GoToCommits(repo: Repository): (nav: Navigation)
    ensures nav.commands == ["/commits"]
    ensures nav.queryParams.Keys == {"owner", "repo"}
    ensures nav.queryParams["owner"] == repo.owner.login
    ensures nav.queryParams["repo"] == repo.name
  {
    Navigation(["/commits"], map["owner" := repo.owner.login, "repo" := repo.name])
  }
}

=== FILE: strings.dfy ===
/** The string operations the application takes from JavaScript: `trim`,
    `Array.prototype.join` and the decimal rendering of a non-negative integer
    (`Number.prototype.toString`). The application never splits a string or
    searches one; `Split`, `FindChar` and `ParseNat` are reference
    definitions that read results back, the inverses the round-trip lemmas
    check `Join` and `NatToString` against. */
module Strings {
  import opened Wrappers

  /** The characters `String.prototype.trim` removes: WhiteSpace and
      LineTerminator of ECMAScript (sections 12.2 and 12.3 of ECMA-262),
      that is, the ASCII white-space and line-break characters, NBSP, ZWNBSP,
      LS, PS and the other space separators of Unicode category Zs. */
  predicate IsWhitespace(c: char) {
    || c == '\t' || c == '\n' || c == '\U{000B}' || c == '\U{000C}' || c == '\r'
    || c == ' ' || c == '\U{00A0}' || c == '\U{1680}'
    || ('\U{2000}' <= c <= '\U{200A}')
    || c == '\U{2028}' || c == '\U{2029}' || c == '\U{202F}' || c == '\U{205F}'
    || c == '\U{3000}' || c == '\U{FEFF}'
  }

  /** Every character of `s` is white space (the empty string is blank). */
  predicate IsBlank(s: string) {
    forall k :: 0 <= k < |s| ==> IsWhitespace(s[k])
  }

  /** Where the run of white space that starts at `from` ends. */
  function BlankEnd(s: string, from: nat): (n: nat)
    requires from <= |s|
    ensures from <= n <= |s|
    ensures forall k :: from <= k < n ==> IsWhitespace(s[k])
    ensures n < |s| ==> !IsWhitespace(s[n])
    decreases |s| - from
  {
    if from < |s| && IsWhitespace(s[from]) then BlankEnd(s, from + 1) else from
  }

  /** Where the run of white space that ends at `hi` starts, looking no
      further back than `lo`. */
  function BlankStart(s: string, lo: nat, hi: nat): (n: nat)
    requires lo <= hi <= |s|
    ensures lo <= n <= hi
    ensures forall k :: n <= k < hi ==> IsWhitespace(s[k])
    ensures lo < n ==> !IsWhitespace(s[n - 1])
    decreases hi
  {
    if lo < hi && IsWhitespace(s[hi - 1]) then BlankStart(s, lo, hi - 1) else hi
  }

  /** JavaScript's `s.trim()`: what lies between the leading and the trailing
      white space of `s`; it neither starts nor ends with white space. */
  function Trim(s: string): (r: string)
    ensures var i := BlankEnd(s, 0);
      && i + |r| <= |s|
      && r == s[i..i + |r|]
      && (forall k :: 0 <= k < i ==> IsWhitespace(s[k]))
      && (forall k :: i + |r| <= k < |s| ==> IsWhitespace(s[k]))
    ensures r == [] || (!IsWhitespace(r[0]) && !IsWhitespace(r[|r| - 1]))
  {
    var i := BlankEnd(s, 0);
    s[i..BlankStart(s, i, |s|)]
  }

  /** A string trims to nothing exactly when it is blank; this is what makes
      `if (query?.trim())` skip a whitespace-only query. */
  lemma TrimEmptyIffBlank(s: string)
    ensures Trim(s) == [] <==> IsBlank(s)
  {
    var i := BlankEnd(s, 0);
    if Trim(s) != [] {
      assert s[i] == Trim(s)[0];
    }
  }

  /** Trimming a trimmed string changes nothing. */
  lemma TrimIdempotent(s: string)
    ensures Trim(Trim(s)) == Trim(s)
  {
    var r := Trim(s);
    if r != [] {
      assert BlankEnd(r, 0) == 0;
      assert BlankStart(r, 0, |r|) == |r|;
      assert r[0..|r|] == r;
    }
  }

  /** `parts.join(sep)`: the parts in order with `sep` between neighbours. */
  function Join(parts: seq<string>, sep: string): string
  {
    if |parts| == 0 then ""
    else if |parts| == 1 then parts[0]
    else parts[0] + sep + Join(parts[1..], sep)
  }

  /** Appending a part to a non-empty list appends the separator and the part. */
  lemma {:induction false} JoinSnoc(parts: seq<string>, x: string, sep: string)
    requires |parts| > 0
    ensures Join(parts + [x], sep) == Join(parts, sep) + sep + x
    decreases |parts|
  {
    if |parts| > 1 {
      assert (parts + [x])[1..] == parts[1..] + [x];
      JoinSnoc(parts[1..], x, sep);
    } else {
      assert parts + [x] == [parts[0], x];
      assert [parts[0], x][1..] == [x];
    }
  }

  /** A join of non-empty parts is empty exactly when there are no parts. */
  lemma {:induction false} JoinEmptyIffNoParts(parts: seq<string>, sep: string)
    requires forall i :: 0 <= i < |parts| ==> parts[i] != ""
    ensures Join(parts, sep) == "" <==> |parts| == 0
    decreases |parts|
  {
    if |parts| > 1 {
      assert |Join(parts, sep)| >= |parts[0]|;
    }
  }

  /** The index of the first occurrence of `c` in `s`, if any (`indexOf`). */
  function FindChar(s: string, c: char): (r: Option<nat>)
    ensures r.None? <==> c !in s
    ensures r.Some? ==> r.value < |s| && s[r.value] == c && c !in s[..r.value]
    decreases |s|
  {
    if |s| == 0 then None
    else if s[0] == c then Some(0)
    else match FindChar(s[1..], c)
      case None => None
      case Some(i) =>
        assert s[..i + 1] == [s[0]] + s[1..][..i];
        Some(i + 1)
  }

  /** `s.split(c)`: the maximal runs of `s` free of `c`, in order. */
  function Split(s: string, c: char): (parts: seq<string>)
    ensures |parts| > 0
    ensures forall i :: 0 <= i < |parts| ==> c !in parts[i]
    decreases |s|
  {
    match FindChar(s, c)
    case None => [s]
    case Some(i) => [s[..i]] + Split(s[i + 1..], c)
  }

  /** The first occurrence of `c` in `a + [c] + b` is the one after `a`
      when `a` holds none. */
  lemma FindCharAfterPrefix(a: string, c: char, b: string)
    requires c !in a
    ensures FindChar(a + [c] + b, c) == Some(|a|)
  {
    var s := a + [c] + b;
    assert s[|a|] == c;
  }

  /** Splitting at the first separator: the part before it, then the split
      of what follows. */
  lemma SplitAtFirst(p: string, c: char, t: string)
    requires c !in p
    ensures Split(p + [c] + t, c) == [p] + Split(t, c)
  {
    var s := p + [c] + t;
    FindCharAfterPrefix(p, c, t);
    assert s[..|p|] == p;
    assert s[|p| + 1..] == t;
  }

  /** Joining the pieces of a split with the separator restores the string. */
  lemma {:induction false} JoinSplit(s: string, c: char)
    ensures Join(Split(s, c), [c]) == s
    decreases |s|
  {
    match FindChar(s, c)
    case None =>
    case Some(i) =>
      var rest := Split(s[i + 1..], c);
      JoinSplit(s[i + 1..], c);
      assert Split(s, c) == [s[..i]] + rest;
      assert ([s[..i]] + rest)[1..] == rest;
      assert s == s[..i] + [c] + s[i + 1..];
  }

  /** Splitting a join on a separator that no part contains gives back the
      parts, so the separator marks exactly the part boundaries. */
  lemma {:induction false} SplitJoin(parts: seq<string>, c: char)
    requires |parts| > 0
    requires forall i :: 0 <= i < |parts| ==> c !in parts[i]
    ensures Split(Join(parts, [c]), c) == parts
    decreases |parts|
  {
    if |parts| == 1 {
      assert FindChar(parts[0], c).None?;
    } else {
      var tail := Join(parts[1..], [c]);
      assert Join(parts, [c]) == parts[0] + [c] + tail;
      SplitAtFirst(parts[0], c, tail);
      SplitJoin(parts[1..], c);
      assert parts == [parts[0]] + parts[1..];
    }
  }

  predicate IsDigit(ch: char) {
    '0' <= ch <= '9'
  }

  /** Every character of `s` is a decimal digit. */
  predicate IsDigits(s: string) {
    forall k :: 0 <= k < |s| ==> IsDigit(s[k])
  }

  function DigitValue(ch: char): (d: nat)
    requires IsDigit(ch)
    ensures d < 10
  {
    ch as int - '0' as int
  }

  function DigitChar(d: nat): (ch: char)
    requires d < 10
    ensures IsDigit(ch) && DigitValue(ch) == d
  {
    ('0' as int + d) as char
  }

  /** The decimal rendering of `n`, as JavaScript's `n.toString()` and a
      template literal `${n}` produce it for a non-negative integer below 10^21. */
  function NatToString(n: nat): (s: string)
    ensures |s| > 0 && IsDigits(s)
    ensures |s| > 1 ==> s[0] != '0'
    decreases n
  {
    if n < 10 then [DigitChar(n)] else NatToString(n / 10) + [DigitChar(n % 10)]
  }

  /** The number a string of decimal digits denotes. */
  function DecimalValue(s: string): nat
    requires IsDigits(s)
    decreases |s|
  {
    if |s| == 0 then 0 else DecimalValue(s[..|s| - 1]) * 10 + DigitValue(s[|s| - 1])
  }

  /** Reads a non-empty string of decimal digits back as a number. */
  function ParseNat(s: string): Option<nat>
  {
    if |s| > 0 && IsDigits(s) then Some(DecimalValue(s)) else None
  }

  /** The decimal rendering of a number reads back as that number. */
  lemma {:induction false} ParseNatToString(n: nat)
    ensures ParseNat(NatToString(n)) == Some(n)
    decreases n
  {
    var s := NatToString(n);
    if n < 10 {
      assert s == [DigitChar(n)];
      assert s[..0] == [];
    } else {
      var h := NatToString(n / 10);
      ParseNatToString(n / 10);
      assert s == h + [DigitChar(n % 10)];
      assert s[..|s| - 1] == h;
      assert DecimalValue(s) == DecimalValue(h) * 10 + n % 10;
    }
  }

  /** Different numbers render differently. */
  lemma NatToStringInjective(a: nat, b: nat)
    ensures NatToString(a) == NatToString(b) <==> a == b
  {
    ParseNatToString(a);
    ParseNatToString(b);
  }
}

=== FILE: wrappers.dfy ===
/** Optional values and success/failure results, used wherever the application
    has an absent value (`undefined`) or an operation that can fail. */
module Wrappers {

  /** A value that may be absent, in place of `undefined`. */
  datatype Option<+T> = None | Some(value: T) {

    /** Returns the value, or `default` when absent. */
    function GetOr(default: T): T {
      match this
      case Some(v) => v
      case None => default
    }
  }

  /** The outcome of an operation that either yields a value or fails. */
  datatype Result<+R, +E> = Success(value: R) | Failure(error: E) {

    /** Applies `f` to a success value and passes a failure through unchanged. */
    function MapValue<S>(f: R -> S): (r: Result<S, E>)
      ensures r.Success? <==> Success?
      ensures r.Success? ==> r.value == f(value)
      ensures r.Failure? ==> r.error == error
    {
      match this
      case Success(v) => Success(f(v))
      case Failure(e) => Failure(e)
    }
  }
}
